=== FILE: README.md ===
# Bounding-box annotation converter, modelled in Dafny

The repository rewrites object-detection label files in place. Each line
holds a box as pixel corners `XMin YMin XMax YMax` after a placeholder class
field. The rewrite turns it into the normalised centre form
`class cx cy w h`. The x values are divided by the paired image's width
(`shape[1]`), the y values by its height (`shape[0]`), and the class id
comes from the name of the class directory. There are two versions of the
script, and both are modelled side by side:

- `convert_annotations.py` (module `Annotations`) drops any line with fewer
  than five fields. It also drops any line whose image is missing or does
  not decode. It halves the extent exactly, writes exactly five fields, and
  discards every field after the fifth.
- `convert_annotations_OLD.py` (module `AnnotationsOld`) rewrites every line
  in place. It truncates the half-extent with `int(...)` and keeps fields
  after the fifth verbatim. When the image cannot be read, it writes the
  parsed pixel values. It has no field-count check, so a short line raises
  `IndexError`, unless one of its fields 1 to 4 fails to parse first (then
  `ValueError`).

Both write `"\n".join(lines) + "\n"`.

Shared pieces:

- `Base`: `Option`, and a `Result` that carries the Python exception a line
  can raise.
- `Text`: these Python string operations:
  - `str.split()`, with Python's whitespace set;
  - `sep.join`;
  - iteration over the lines of a file;
  - the output join;
  - `str` of a class id.
- `Paths`: the `.txt` filter, `os.path.splitext`, and the `os.path.join`
  that builds the image path.
- `Boxes`: both `convert` functions, over exact reals.
- `Fields`: the class table `{"Hammer": 0, "Pipes": 1}` (lines 49 and 83 of
  the new script, lines 63 and 77 of the old), and the left-to-right
  `float(labels[1..4])`.
- `Variants`: how the two scripts relate.

The surroundings are parameters rather than ambient globals. `DIR`,
`CLASS_DIR`, `ROOT_DIR` and the file name are passed in as a
`Paths.LabelFile`. The image store is a function from path to
`Missing | Undecodable | Decoded(width, height)`; it stands for
`os.path.exists` and `cv2.imread`. `float(...)` and `str(...)` of floats are
an abstract `Text.Numerals(parse, show)`. Lemmas about the field layout of
written lines assume only that `show` yields one whitespace-free field;
the comparison of the two scripts' lines also assumes that `show` tells
the exact and the truncated values of the box apart.

An exception is not caught by either script. It aborts the run before the
current file is written, so a file-level conversion returns `Raised(e)`
instead of new content.

## Model

| member | source | states |
|---|---|---|
| Text.Split | convert_annotations.py:76 | every field of a split line is non-empty and free of whitespace |
| Text.SplitInterleave | convert_annotations.py:76 | a line made of fields separated by whitespace runs splits into exactly those fields, in order. The runs may be tabs, several blanks or a trailing "\r"; leading and trailing runs may be empty. Every line has this form, so the fields are the line's maximal whitespace-free runs |
| Text.SplitBlank | convert_annotations.py:76-80 | a line yields no field exactly when it consists of whitespace only |
| Text.SplitJoin | convert_annotations.py:93 | splitting fields joined by single spaces gives back exactly those fields, so a written line reads back as the fields written |
| Text.Join | convert_annotations.py:93 | no part joins to the empty string and a single part to itself; `Text.SplitJoin` inverts the join of fields with single spaces |
| Text.WriteLines | convert_annotations.py:98 | the written content always ends with "\n", and no line at all is written as a lone "\n"; `Text.LinesOfWriteLines` reads it back |
| Text.Lines | convert_annotations.py:75 | no line read from a file contains "\n", and an empty file has no lines; `Text.LinesOfWriteLines` reads the written content back with it, and `Text.LinesUnterminated` reads a final line without "\n" as a line |
| Text.LinesUnterminated | convert_annotations.py:75 | a file whose last line lacks "\n" has the same lines as that file with "\n" appended, so the unterminated last line is still read; with `Text.LinesOfWriteLines` this fixes the lines of every file |
| Text.LinesOfWriteLines | convert_annotations.py:98 | reading back `"\n".join(lines) + "\n"` gives the lines, except that no lines are written as a lone "\n", which reads back as one empty line |
| Text.WrittenFieldsReadBack | convert_annotations.py:93-98 | a file written as lines of space-joined fields reads back, line by line, as exactly those fields; no line at all reads back as one line without fields |
| Text.Decimal | convert_annotations.py:93 | `str` of a class id is one field of decimal digits with no leading zero |
| Text.DecimalRoundTrip | convert_annotations.py:93 | the written class id reads back as the same number |
| Paths.PathJoin | convert_annotations.py:8-10 | a join ends with its last component, keeps the first as prefix when the last is relative, and an absolute last component replaces the path |
| Paths.ImagePath | convert_annotations.py:8-10 | the image path ends with the label file's stem plus ".jpg" |
| Paths.ImagePathLayout | convert_annotations.py:8-10 | for listing names under an ordinary working directory the path is `<root>/OID/Dataset/<split>/<class>/<stem>.jpg` |
| Paths.StemOf | convert_annotations.py:69 | the stem is a prefix of the name, empty only for an empty name |
| Paths.StemOfLabelName | convert_annotations.py:68-69 | a ".txt" name loses its extension exactly when a character other than '.' precedes it; ".txt" itself is its own stem |
| Boxes.ToCentre | convert_annotations.py:22-32 | normalised width times W is `xmax-xmin`, height times H is `ymax-ymin`, and twice the centre times W (H) is `xmin+xmax` (`ymin+ymax`); no clamping: the extent is negative exactly when the corners are out of order |
| Boxes.Convert | convert_annotations.py:13-20 | a box comes back exactly when the image decodes, and it scales back to the input corners |
| Boxes.RoundTrip | convert_annotations.py:22-32 | `cx*W - w*W/2 = xmin`, `cx*W + w*W/2 = xmax`, and likewise for y with H, exactly |
| Boxes.RoundTripBack | convert_annotations.py:22-32 | every normalised box is the conversion of the corners it scales back to |
| Boxes.UnitBounds | convert_annotations.py:22-32 | with `0 <= xmin <= xmax <= W` and `0 <= ymin <= ymax <= H` all four outputs lie in [0, 1] |
| Boxes.WorkedExample | convert_annotations.py:22-32 | a 100 x 200 image and box (10, 20)-(30, 80) give (0.2, 0.25, 0.2, 0.3) |
| Boxes.Trunc | convert_annotations_OLD.py:24-25 | `int(x)` moves x toward zero by less than one |
| Boxes.TruncFixesIntegral | convert_annotations_OLD.py:24-25 | `int(x) == x` exactly when x is a whole number |
| Boxes.ToCentreTruncated | convert_annotations_OLD.py:22-31 | the old extents equal the new ones; for a non-negative extent `cx*W` is at most the exact centre and more than the exact centre minus 1, and mirrored for a negative extent |
| Boxes.ConvertTruncated | convert_annotations_OLD.py:13-20 | the result is normalised exactly when the image decodes, and then it is the truncated box of `Boxes.ToCentreTruncated` (centre within one pixel of the exact one, exact extents); otherwise the four pixel values come back unchanged |
| Boxes.TruncatedAgreesIffWholeHalves | convert_annotations_OLD.py:24-28 | the old and new boxes coincide exactly when both half-extents are whole numbers |
| Boxes.TruncatedUnitBounds | convert_annotations_OLD.py:22-31 | a box inside its image still gives four values in [0, 1] under truncation |
| Fields.ClassId | convert_annotations.py:83 | the id is 0 or 1, and it is 1 exactly for the directory "Pipes" ("Hammer" and unknown names give 0) |
| Fields.Field | convert_annotations.py:86 | `float(labels[i])` succeeds exactly when field i exists and parses, and then returns the parsed value of field i. It raises IndexError exactly when the field does not exist |
| Fields.ParseCorners | convert_annotations.py:86 | the corners are read exactly when there are five or more fields and fields 1 to 4 parse, are fields 1 to 4 in order, and IndexError escapes exactly when the line is short and every field from 1 on that is present parses |
| Fields.ParseCornersReadsFieldsOneToFour | convert_annotations.py:86 | field 0 and fields after the fifth do not influence the parsed corners |
| Annotations.ConvertLine | convert_annotations.py:76-94 | a line with fewer than 5 fields is dropped; only ValueError can escape, and only from a long line; a line is emitted exactly when it has five or more fields, fields 1 to 4 parse and the image decodes |
| Annotations.EmittedLineFields | convert_annotations.py:93 | an emitted line has exactly five fields, the directory's class id and then the four normalised values |
| Annotations.IgnoresClassFieldAndExtras | convert_annotations.py:83-86 | the input's class field and any field after the fifth have no effect on the output |
| Annotations.ConvertLines | convert_annotations.py:74-94 | the file converts exactly when no line raises, yields at most one line per input line, and none at all when the image is missing or unreadable |
| Annotations.LongLines | convert_annotations.py:78-80 | every kept line is an input line with five or more fields, and every such input line is kept; a single line is kept exactly when it is long |
| Annotations.LongLinesAppend | convert_annotations.py:78-80 | the lines kept from a concatenation are those kept from each part, in order, so the filter keeps input order and repetitions |
| Annotations.ConvertLinesKeepsLongLines | convert_annotations.py:74-94 | with a readable image the output is the lines of five or more fields, each converted, in input order |
| Annotations.ConvertLinesAppend | convert_annotations.py:75-94 | converting a concatenation of runs concatenates their outputs, and an exception in an earlier run wins |
| Annotations.SkipsShortLine | convert_annotations.py:78-80 | a short line can be removed from anywhere without changing the result, so later lines are still processed |
| Annotations.ConvertLinesShape | convert_annotations.py:93-94 | every emitted line has five fields headed by the directory's class id |
| Annotations.ConvertFile | convert_annotations.py:97-98 | the written content ends with "\n", and is exactly "\n" when the image is missing or unreadable |
| Annotations.ConvertedFileReadsBack | convert_annotations.py:97-98 | the written file reads back as the emitted lines, or a single empty line when all were dropped |
| AnnotationsOld.ConvertLine | convert_annotations_OLD.py:74-86 | a line is rewritten exactly when fields 1 to 4 exist and parse; a short line whose fields from 1 on that are present all parse raises IndexError |
| AnnotationsOld.RewrittenLineFields | convert_annotations_OLD.py:83-86 | a rewritten line keeps the field count. Field 0 becomes the class id and fields 1 to 4 the `convert` result, which are the raw pixel values when the image is unreadable. Later fields are kept verbatim. |
| AnnotationsOld.ConvertLines | convert_annotations_OLD.py:72-87 | the file converts exactly when every line parses, and then gives one output line per input line, in order, each the rewrite of its input |
| AnnotationsOld.RewrittenLinesShape | convert_annotations_OLD.py:83-87 | each output line has as many fields as its input line, the class id first |
| AnnotationsOld.ConvertFile | convert_annotations_OLD.py:90-91 | the written content ends with "\n". A file is written exactly when fields 1 to 4 of every line exist and parse, so only when every line has at least five fields |
| AnnotationsOld.RewrittenFileReadsBack | convert_annotations_OLD.py:90-91 | the written file reads back as exactly the rewritten lines, or one empty line for an empty file. That is one line per input line, each with its original field count and the class id first |
| Variants.SameLineIffWholeHalves | convert_annotations_OLD.py:22-28 | on a five-field line with a readable image, and given that `str` tells the exact and truncated values apart, the two scripts write the same line exactly when both half-extents are whole numbers |
| Variants.SameLinesForWholeHalves | convert_annotations_OLD.py:72-87 | a file of five-field lines with whole half-extents and a readable image converts identically under both scripts |
| Variants.EmptyOutputOnRerun | convert_annotations_OLD.py:74-80 | the new script leaves its own all-dropped output "\n" as it is, while the old script raises IndexError on it |
| Variants.TruncatedCentreMissesBox | convert_annotations_OLD.py:24-26 | the box (0, 0)-(3, 3) in a 100 x 100 image gets centre 0.01 instead of 0.015 and no longer scales back to itself |
| Variants.PassThroughKeepsPixelValues | convert_annotations_OLD.py:13-15 | with the image missing, the line "0 10 20 30 80" is written with the pixel values, one of them 80, while the new script drops it |

## Left out

- The directory walk. This covers listing the split and class directories,
  skipping a class directory without a `Label` folder, opening, reading and
  overwriting the files, and the fact that an exception also stops every
  later file. All of this is file-system I/O. The model stops at one label
  file: its content in, its new content or the exception out.
- `os.path.exists` and `cv2.imread`. These are foreign calls. They are the
  `images` parameter, which maps the modelled image path to
  `Missing | Undecodable | Decoded(width, height)`. A decoded image always
  has positive sides.
- `classes.txt`. It is file I/O, and the dictionary it builds is never used
  for the ids.
- `float(...)` and `str(...)` of floats. IEEE text conversion is the
  abstract `Numerals(parse, show)`. Values are exact reals, so IEEE rounding
  is not modelled. `inf` and `nan` are outside the model.
- Universal-newline translation of "\r" and "\r\n" on reading. Content is
  taken as already translated. `split()` treats "\r" as whitespace in any
  case.
- `tqdm` progress bars and `print` warnings. They are console output only.

## Findings

| source | as written | input that shows it | evidently intended | confidence | as-written member | corrected member |
|---|---|---|---|---|---|---|
| convert_annotations_OLD.py:24-28 | the centre is min plus `int(extent / 2)`, a truncated half-extent | a 100 x 100 image and box (0, 0)-(3, 3) give centre 0.01 instead of 0.015, and the box no longer scales back to itself | the exact midpoint, min plus extent / 2, as convert_annotations.py computes | high; not executed | Variants.TruncatedCentreMissesBox | Boxes.RoundTrip |
| convert_annotations_OLD.py:13-20 | a missing or unreadable image returns the pixel coordinates, which are then written into the normalised label file | with no image, the line "0 10 20 30 80" is written with the values 10 20 30 80, and 80 is outside [0, 1] | a label file in the normalised format holds no pixel values. The comment at line 15 calls the unchanged coordinates deliberate, but writing them into the label is evidently not intended; convert_annotations.py drops such a line | medium; not executed | Variants.PassThroughKeepsPixelValues | Annotations.ConvertLine |

=== FILE: annotations.dfy ===
/** The per-file rewrite of convert_annotations.py: every line of a label
    file is split into fields; a line with fewer than five fields is
    dropped; otherwise fields 1 to 4 are read as the pixel corners, the
    paired image normalises them, and the line becomes the class id of the
    directory followed by the four normalised values. A line whose image is
    missing or unreadable is dropped too. The kept lines are joined with
    "\n" and a final "\n" is added. */
module Annotations {
  import opened Base
  import opened Text
  import opened Boxes
  import opened Fields
  import Paths

  /** One pass of the loop body: Ok(None) drops the line, Ok(Some(s))
      emits `s`, and Raised(e) is an exception that aborts the run. */
  function ConvertLine(labels: seq<string>, classDir: string, image: Image, num: Numerals)
    : (r: Result<Option<string>>)
    ensures |labels| < 5 ==> r == Ok(None)
    ensures r.Raised? ==> r.error == ValueError
    ensures r.Raised? <==> |labels| >= 5 && ParseCorners(labels, num.parse).Raised?
    ensures r.Ok? && r.value.Some?
            <==> |labels| >= 5 && ParseCorners(labels, num.parse).Ok? && image.Decoded?
  {
    if |labels| < 5 then Ok(None)
    else
      var classId := ClassId(classDir);
      var coords :- ParseCorners(labels, num.parse);
      match Convert(image, coords)
      case None => Ok(None)
      case Some(b) => Ok(Some(Decimal(classId) + " " + Join(" ", ShowAll(b.Values(), num.show))))
  }

  /** The shape of every emitted line: exactly five fields, the first the
      class id of the directory, no line break inside. */
  ghost predicate OutputLine(line: string, classDir: string) {
    var fs := Split(line);
    |fs| == 5 && fs[0] == Decimal(ClassId(classDir)) && '\n' !in line
  }

  /** An emitted line reads back as the directory's class id followed by
      the four normalised values of fields 1 to 4; field 0 and any field
      after the fifth are gone. */
  lemma EmittedLineFields(labels: seq<string>, classDir: string, image: Image, num: Numerals,
                          line: string)
    requires ShowsTokens(num)
    requires ConvertLine(labels, classDir, image, num) == Ok(Some(line))
    ensures OutputLine(line, classDir)
    ensures Split(line)[1..]
            == ShowAll(ToCentre(ParseCorners(labels, num.parse).value, image.dims).Values(), num.show)
  {
    var b := ToCentre(ParseCorners(labels, num.parse).value, image.dims);
    var fs := [Decimal(ClassId(classDir))] + ShowAll(b.Values(), num.show);
    assert AllTokens(fs);
    assert fs[1..] == ShowAll(b.Values(), num.show);
    assert line == Join(" ", fs);
    SplitJoin(fs);
    TokensAvoidNewline(fs);
    JoinAvoids(" ", fs, '\n');
  }

  /** Field 0 is never consulted, and fields after the fifth are
      discarded: changing either leaves the outcome unchanged. */
  lemma IgnoresClassFieldAndExtras(labels: seq<string>, other: string, extra: seq<string>,
                                   classDir: string, image: Image, num: Numerals)
    requires |labels| >= 5
    ensures ConvertLine(labels[0 := other], classDir, image, num)
            == ConvertLine(labels, classDir, image, num)
    ensures ConvertLine(labels + extra, classDir, image, num)
            == ConvertLine(labels, classDir, image, num)
  {
    ParseCornersReadsFieldsOneToFour(labels, other, extra, num.parse);
  }

  /** The loop over the lines of a file: the emitted lines in order, or the
      first exception raised. */
  function ConvertLines(lines: seq<seq<string>>, classDir: string, image: Image, num: Numerals)
    : (r: Result<seq<string>>)
    ensures r.Ok? <==> forall i :: 0 <= i < |lines| ==> ConvertLine(lines[i], classDir, image, num).Ok?
    ensures r.Ok? ==> |r.value| <= |lines|
    ensures r.Ok? && !image.Decoded? ==> r.value == []
  {
    if lines == [] then Ok([])
    else
      var first :- ConvertLine(lines[0], classDir, image, num);
      var rest :- ConvertLines(lines[1..], classDir, image, num);
      assert forall i :: 1 <= i < |lines| ==> lines[i] == lines[1..][i - 1];
      Ok(if first.Some? then [first.value] + rest else rest)
  }

  /** The lines the converter keeps when the image is readable: those with
      at least five fields, in their original order. */
  function LongLines(lines: seq<seq<string>>): (kept: seq<seq<string>>)
    ensures |kept| <= |lines|
    ensures forall i :: 0 <= i < |kept| ==> |kept[i]| >= 5
    ensures forall i :: 0 <= i < |lines| && |lines[i]| >= 5 ==> lines[i] in kept
    ensures forall i :: 0 <= i < |kept| ==> kept[i] in lines
    ensures |lines| == 1 ==> kept == (if |lines[0]| >= 5 then lines else [])
  {
    if lines == [] then []
    else (if |lines[0]| >= 5 then [lines[0]] else []) + LongLines(lines[1..])
  }

  /** The filter works line by line: the lines kept from a concatenation
      are those kept from each part, in order, so order and repetitions of
      the input survive. */
  lemma {:induction false} LongLinesAppend(a: seq<seq<string>>, b: seq<seq<string>>)
    ensures LongLines(a + b) == LongLines(a) + LongLines(b)
  {
    if a == [] {
      assert a + b == b;
    } else {
      assert (a + b)[0] == a[0];
      assert (a + b)[1..] == a[1..] + b;
      LongLinesAppend(a[1..], b);
    }
  }

  /** With a readable image, the converted file is the long lines, each
      converted, in order: one output line per line of five or more fields
      and none for the others. */
  lemma {:induction false} ConvertLinesKeepsLongLines(lines: seq<seq<string>>, classDir: string,
                                                      image: Image, num: Numerals)
    requires image.Decoded?
    requires ConvertLines(lines, classDir, image, num).Ok?
    ensures var out := ConvertLines(lines, classDir, image, num).value;
            var kept := LongLines(lines);
            |out| == |kept|
            && forall i :: 0 <= i < |out| ==> ConvertLine(kept[i], classDir, image, num) == Ok(Some(out[i]))
  {
    if lines != [] {
      ConvertLinesStep(lines, classDir, image, num);
      var first := ConvertLine(lines[0], classDir, image, num).value;
      ConvertLinesKeepsLongLines(lines[1..], classDir, image, num);
      var rest := ConvertLines(lines[1..], classDir, image, num).value;
      var keptRest := LongLines(lines[1..]);
      assert LongLines(lines) == (if |lines[0]| >= 5 then [lines[0]] else []) + keptRest;
      if |lines[0]| >= 5 {
        var out, kept := [first.value] + rest, [lines[0]] + keptRest;
        forall i | 0 <= i < |out|
          ensures ConvertLine(kept[i], classDir, image, num) == Ok(Some(out[i]))
        {
          if i > 0 {
            assert kept[i] == keptRest[i - 1] && out[i] == rest[i - 1];
          }
        }
      } else {
        assert [] + keptRest == keptRest;
      }
    }
  }

  /** One step of the loop: the first line's output, if any, then the
      output for the rest of the file. */
  lemma ConvertLinesStep(lines: seq<seq<string>>, classDir: string, image: Image, num: Numerals)
    requires lines != []
    requires ConvertLines(lines, classDir, image, num).Ok?
    ensures ConvertLine(lines[0], classDir, image, num).Ok?
    ensures ConvertLines(lines[1..], classDir, image, num).Ok?
    ensures var first := ConvertLine(lines[0], classDir, image, num).value;
            ConvertLines(lines, classDir, image, num).value
            == (if first.Some? then [first.value] else []) + ConvertLines(lines[1..], classDir, image, num).value
  {
  }

  /** Converting two runs of lines one after the other is converting their
      concatenation: the outputs are concatenated, and an exception in the
      first run wins. */
  lemma {:induction false} ConvertLinesAppend(a: seq<seq<string>>, b: seq<seq<string>>,
                                              classDir: string, image: Image, num: Numerals)
    ensures ConvertLines(a + b, classDir, image, num)
            == Sequence(ConvertLines(a, classDir, image, num), ConvertLines(b, classDir, image, num))
  {
    if a == [] {
      assert a + b == b;
      var rb := ConvertLines(b, classDir, image, num);
      if rb.Ok? {
        assert [] + rb.value == rb.value;
      }
    } else {
      assert (a + b)[0] == a[0];
      assert (a + b)[1..] == a[1..] + b;
      ConvertLinesAppend(a[1..], b, classDir, image, num);
      var first := ConvertLine(a[0], classDir, image, num);
      if first.Ok? {
        var head := if first.value.Some? then [first.value.value] else [];
        var ra := ConvertLines(a[1..], classDir, image, num);
        var rb := ConvertLines(b, classDir, image, num);
        if ra.Ok? && rb.Ok? {
          assert head + (ra.value + rb.value) == (head + ra.value) + rb.value;
        }
      }
    }
  }

  /** The outcome of converting one run of lines and then another. */
  function Sequence(ra: Result<seq<string>>, rb: Result<seq<string>>): Result<seq<string>> {
    if ra.Raised? then ra
    else if rb.Raised? then rb
    else Ok(ra.value + rb.value)
  }

  /** A line with fewer than five fields is skipped without disturbing the
      lines before or after it. */
  lemma SkipsShortLine(a: seq<seq<string>>, short: seq<string>, b: seq<seq<string>>,
                       classDir: string, image: Image, num: Numerals)
    requires |short| < 5
    ensures ConvertLines(a + [short] + b, classDir, image, num)
            == ConvertLines(a + b, classDir, image, num)
  {
    ConvertLinesAppend(a + [short], b, classDir, image, num);
    ConvertLinesAppend(a, [short], classDir, image, num);
    ConvertLinesAppend(a, b, classDir, image, num);
    assert ConvertLines([short], classDir, image, num) == Ok([]);
    var ra := ConvertLines(a, classDir, image, num);
    if ra.Ok? {
      assert ra.value + [] == ra.value;
    }
  }

  /** Every emitted line has the five-field shape. */
  lemma {:induction false} ConvertLinesShape(lines: seq<seq<string>>, classDir: string,
                                             image: Image, num: Numerals)
    requires ShowsTokens(num)
    requires ConvertLines(lines, classDir, image, num).Ok?
    ensures var out := ConvertLines(lines, classDir, image, num).value;
            forall i :: 0 <= i < |out| ==> OutputLine(out[i], classDir)
  {
    if lines != [] {
      ConvertLinesShape(lines[1..], classDir, image, num);
      match ConvertLine(lines[0], classDir, image, num).value
      case None =>
      case Some(line) => EmittedLineFields(lines[0], classDir, image, num, line);
    }
  }

  /** The new content of one label file, or the exception that aborted the
      run before it was written. The image is looked up at the path built
      from the working directory, split, class directory and file stem. */
  function ConvertFile(f: Paths.LabelFile, content: string, images: string -> Image, num: Numerals)
    : (r: Result<string>)
    ensures r.Ok? ==> |r.value| > 0 && r.value[|r.value| - 1] == '\n'
    ensures r.Ok? && !images(Paths.ImagePath(f)).Decoded? ==> r.value == "\n"
    ensures r.Ok? <==> ConvertLines(SplitLines(content), f.classDir, images(Paths.ImagePath(f)), num).Ok?
  {
    var image := images(Paths.ImagePath(f));
    var kept :- ConvertLines(SplitLines(content), f.classDir, image, num);
    Ok(WriteLines(kept))
  }

  /** Reading a converted file back yields the emitted lines, each of five
      fields headed by the class id, or a single empty line when every line
      was dropped. */
  lemma ConvertedFileReadsBack(f: Paths.LabelFile, content: string, images: string -> Image,
                               num: Numerals)
    requires ShowsTokens(num)
    requires ConvertFile(f, content, images, num).Ok?
    ensures var out := ConvertLines(SplitLines(content), f.classDir, images(Paths.ImagePath(f)), num).value;
            && Lines(ConvertFile(f, content, images, num).value) == (if out == [] then [""] else out)
            && forall i :: 0 <= i < |out| ==> OutputLine(out[i], f.classDir)
  {
    var image := images(Paths.ImagePath(f));
    ConvertLinesShape(SplitLines(content), f.classDir, image, num);
    LinesOfWriteLines(ConvertLines(SplitLines(content), f.classDir, image, num).value);
  }
}

=== FILE: annotations_old.dfy ===
/** The per-file rewrite of convert_annotations_OLD.py: every line of a
    label file is split into fields and rewritten in place. Field 0 becomes
    the class id of the directory and fields 1 to 4 become the converted
    values; any further fields stay as they were. There is no field-count
    check, so a line with fewer than five fields raises IndexError, and a
    missing or unreadable image leaves the pixel values in the line. */
module AnnotationsOld {
  import opened Base
  import opened Text
  import opened Boxes
  import opened Fields
  import Paths

  /** One pass of the loop body: the rewritten line, or the exception that
      aborts the run. */
  function ConvertLine(labels: seq<string>, classDir: string, image: Image, num: Numerals)
    : (r: Result<string>)
    ensures r.Ok? <==> ParseCorners(labels, num.parse).Ok?
    ensures r.Ok? ==> |labels| >= 5
    ensures |labels| < 5 && (forall i :: 1 <= i < |labels| ==> num.parse(labels[i]).Some?)
            ==> r == Raised(IndexError)
  {
    var classId := ClassId(classDir);
    var coords :- ParseCorners(labels, num.parse);
    var shown := ShowAll(ConvertTruncated(image, coords).Values(), num.show);
    var rewritten := labels[0 := Decimal(classId)][1 := shown[0]][2 := shown[1]]
                           [3 := shown[2]][4 := shown[3]];
    Ok(Join(" ", rewritten))
  }

  /** A rewritten line has as many fields as the input line: field 0 is the
      directory's class id, fields 1 to 4 are the values the old `convert`
      returned, and every later field is copied verbatim. When the image
      could not be read, fields 1 to 4 are the parsed pixel values. */
  lemma RewrittenLineFields(labels: seq<string>, classDir: string, image: Image, num: Numerals,
                            line: string)
    requires AllTokens(labels)
    requires ShowsTokens(num)
    requires ConvertLine(labels, classDir, image, num) == Ok(line)
    ensures var fs := Split(line);
            var corners := ParseCorners(labels, num.parse).value;
            && |fs| == |labels|
            && fs[0] == Decimal(ClassId(classDir))
            && fs[1..5] == ShowAll(ConvertTruncated(image, corners).Values(), num.show)
            && fs[5..] == labels[5..]
            && (!image.Decoded? ==> fs[1..5] == ShowAll(corners.Values(), num.show))
            && '\n' !in line
  {
    var corners := ParseCorners(labels, num.parse).value;
    var shown := ShowAll(ConvertTruncated(image, corners).Values(), num.show);
    var rewritten := labels[0 := Decimal(ClassId(classDir))][1 := shown[0]][2 := shown[1]]
                           [3 := shown[2]][4 := shown[3]];
    assert line == Join(" ", rewritten);
    assert rewritten[1..5] == shown;
    assert rewritten[5..] == labels[5..];
    assert AllTokens(rewritten);
    SplitJoin(rewritten);
    TokensAvoidNewline(rewritten);
    JoinAvoids(" ", rewritten, '\n');
  }

  /** The loop over the lines of a file: one rewritten line per input line,
      in order, or the first exception raised. */
  function ConvertLines(lines: seq<seq<string>>, classDir: string, image: Image, num: Numerals)
    : (r: Result<seq<string>>)
    ensures r.Ok? <==> forall i :: 0 <= i < |lines| ==> ParseCorners(lines[i], num.parse).Ok?
    ensures r.Ok? ==> |r.value| == |lines|
    ensures r.Ok? ==> forall i :: 0 <= i < |lines| ==> ConvertLine(lines[i], classDir, image, num) == Ok(r.value[i])
  {
    if lines == [] then Ok([])
    else
      var first :- ConvertLine(lines[0], classDir, image, num);
      var rest :- ConvertLines(lines[1..], classDir, image, num);
      assert forall i :: 1 <= i < |lines| ==> lines[i] == lines[1..][i - 1];
      Ok([first] + rest)
  }

  /** The new content of one label file, or the exception that aborted the
      run before it was written. */
  function ConvertFile(f: Paths.LabelFile, content: string, images: string -> Image, num: Numerals)
    : (r: Result<string>)
    ensures r.Ok? ==> |r.value| > 0 && r.value[|r.value| - 1] == '\n'
    ensures r.Ok? ==> forall i :: 0 <= i < |Lines(content)| ==> |Split(Lines(content)[i])| >= 5
    ensures r.Ok? ==> forall i :: 0 <= i < |Lines(content)| ==> ParseCorners(Split(Lines(content)[i]), num.parse).Ok?
    ensures (forall i :: 0 <= i < |Lines(content)| ==> ParseCorners(Split(Lines(content)[i]), num.parse).Ok?)
            ==> r.Ok?
  {
    var image := images(Paths.ImagePath(f));
    var lines := SplitLines(content);
    LinesParse(content, f.classDir, image, num);
    var rewritten :- ConvertLines(lines, f.classDir, image, num);
    Ok(WriteLines(rewritten))
  }

  /** The loop over a file's lines succeeds exactly when fields 1 to 4 of
      every line of the content parse. */
  lemma LinesParse(content: string, classDir: string, image: Image, num: Numerals)
    ensures ConvertLines(SplitLines(content), classDir, image, num).Ok?
            ==> forall i :: 0 <= i < |Lines(content)| ==> ParseCorners(Split(Lines(content)[i]), num.parse).Ok?
    ensures (forall i :: 0 <= i < |Lines(content)| ==> ParseCorners(Split(Lines(content)[i]), num.parse).Ok?)
            ==> ConvertLines(SplitLines(content), classDir, image, num).Ok?
    ensures ConvertLines(SplitLines(content), classDir, image, num).Ok?
            ==> forall i :: 0 <= i < |Lines(content)| ==> |Split(Lines(content)[i])| >= 5
  {
    var ls := Lines(content);
    var lines := SplitLines(content);
    if ConvertLines(lines, classDir, image, num).Ok? {
      forall i | 0 <= i < |ls|
        ensures ParseCorners(Split(ls[i]), num.parse).Ok? && |Split(ls[i])| >= 5
      {
        assert lines[i] == Split(ls[i]);
      }
    } else {
      var j :| 0 <= j < |lines| && !ParseCorners(lines[j], num.parse).Ok?;
      assert lines[j] == Split(ls[j]);
    }
  }

  /** The shape of a rewritten line: `count` fields, the first the class
      id of the directory, no line break inside. */
  ghost predicate RewrittenShape(line: string, count: nat, classDir: string) {
    var fs := Split(line);
    |fs| == count && count > 0 && fs[0] == Decimal(ClassId(classDir)) && '\n' !in line
  }

  /** Every rewritten line keeps the field count of its input line. */
  lemma RewrittenLinesShape(lines: seq<seq<string>>, classDir: string, image: Image, num: Numerals)
    requires forall i :: 0 <= i < |lines| ==> AllTokens(lines[i])
    requires ShowsTokens(num)
    requires ConvertLines(lines, classDir, image, num).Ok?
    ensures var out := ConvertLines(lines, classDir, image, num).value;
            forall i :: 0 <= i < |out| ==> RewrittenShape(out[i], |lines[i]|, classDir)
  {
    var out := ConvertLines(lines, classDir, image, num).value;
    forall i | 0 <= i < |out|
      ensures RewrittenShape(out[i], |lines[i]|, classDir)
    {
      RewrittenLineFields(lines[i], classDir, image, num, out[i]);
    }
  }

  /** Reading a rewritten file back yields exactly one line per line of the
      original, each with as many fields as before and the class id first;
      an empty file is written as a single empty line. */
  lemma RewrittenFileReadsBack(f: Paths.LabelFile, content: string, images: string -> Image,
                               num: Numerals)
    requires ShowsTokens(num)
    requires ConvertFile(f, content, images, num).Ok?
    ensures var back := Lines(ConvertFile(f, content, images, num).value);
            var before := Lines(content);
            var out := ConvertLines(SplitLines(content), f.classDir, images(Paths.ImagePath(f)), num).value;
            && back == (if out == [] then [""] else out)
            && |back| == (if before == [] then 1 else |before|)
            && forall i :: 0 <= i < |before| ==> RewrittenShape(back[i], |Split(before[i])|, f.classDir)
  {
    var image := images(Paths.ImagePath(f));
    var out := ConvertLines(SplitLines(content), f.classDir, image, num).value;
    assert ConvertFile(f, content, images, num).value == WriteLines(out);
    RewrittenLinesReadBack(content, f.classDir, image, num);
  }

  lemma RewrittenLinesReadBack(content: string, classDir: string, image: Image, num: Numerals)
    requires ShowsTokens(num)
    requires ConvertLines(SplitLines(content), classDir, image, num).Ok?
    ensures var out := ConvertLines(SplitLines(content), classDir, image, num).value;
            var back := Lines(WriteLines(out));
            var before := Lines(content);
            && back == (if out == [] then [""] else out)
            && |back| == (if before == [] then 1 else |before|)
            && forall i :: 0 <= i < |before| ==> RewrittenShape(back[i], |Split(before[i])|, classDir)
  {
    var lines := SplitLines(content);
    var out := ConvertLines(lines, classDir, image, num).value;
    RewrittenLinesShape(lines, classDir, image, num);
    assert forall i :: 0 <= i < |out| ==> '\n' !in out[i];
    LinesOfWriteLines(out);
    var before := Lines(content);
    assert |out| == |before|;
    forall i | 0 <= i < |before|
      ensures RewrittenShape(Lines(WriteLines(out))[i], |Split(before[i])|, classDir)
    {
      assert lines[i] == Split(before[i]);
    }
  }
}

=== FILE: base.dfy ===
/** Failure-carrying datatypes shared by both converter variants. */
module Base {

  /** A value that may be absent; the converter's `None` returns. */
  datatype Option<+T> = None | Some(value: T)

  /** The Python exceptions a label line can raise. Neither converter catches
      them, so each one aborts the run before the label file is rewritten. */
  datatype Exception =
    | IndexError   // `labels[i]` on a line with too few tokens
    | ValueError   // `float(...)` on a token that is not a number

  /** Either a value or the exception that was raised computing it. */
  datatype Result<+T> = Ok(value: T) | Raised(error: Exception) {

    predicate IsFailure() {
      Raised?
    }

    function PropagateFailure<U>(): Result<U>
      requires Raised?
    {
      Raised(error)
    }

    function Extract(): T
      requires Ok?
    {
      value
    }
  }
}

=== FILE: boxes.dfy ===
/** The coordinate arithmetic of both converters: the `convert` function of
    each variant, over exact reals. The new variant halves the box extent
    exactly; the old variant truncates the half-extent to an integer with
    Python's `int(...)` and hands the pixel corners back unchanged when the
    image cannot be read. */
module Boxes {
  import opened Base

  type PosInt = n: int | 0 < n witness 1

  /** The pixel size of a decoded image: `width` is `image.shape[1]` and
      `height` is `image.shape[0]`. A decoded image is never empty. */
  datatype Dims = Dims(width: PosInt, height: PosInt)

  /** What `os.path.exists` and `cv2.imread` report for the image paired
      with a label file. */
  datatype Image = Missing | Undecodable | Decoded(dims: Dims)

  /** A box as the label files store it before conversion, in pixels. */
  datatype Corners = Corners(xMin: real, yMin: real, xMax: real, yMax: real) {
    function Values(): seq<real> {
      [xMin, yMin, xMax, yMax]
    }
  }

  /** A box as the detector expects it: centre and extent, each divided by
      the image width (x values) or height (y values). */
  datatype Centre = Centre(cx: real, cy: real, w: real, h: real) {
    function Values(): seq<real> {
      [cx, cy, w, h]
    }
  }

  /** What the old `convert` hands back: normalised values, or the pixel
      corners untouched. */
  datatype Coords = Pixel(corners: Corners) | Normalised(centre: Centre) {
    function Values(): seq<real> {
      match this
      case Pixel(c) => c.Values()
      case Normalised(b) => b.Values()
    }
  }

  /** A box inside its image, with its corners in order. */
  predicate InsideImage(c: Corners, d: Dims) {
    && 0.0 <= c.xMin <= c.xMax <= d.width as real
    && 0.0 <= c.yMin <= c.yMax <= d.height as real
  }

  predicate InUnit(x: real) {
    0.0 <= x <= 1.0
  }

  predicate AllInUnit(b: Centre) {
    InUnit(b.cx) && InUnit(b.cy) && InUnit(b.w) && InUnit(b.h)
  }

  /** The arithmetic of the new `convert`: the extent is max minus min, the
      centre is min plus half the extent, and x values are divided by the
      width, y values by the height. Nothing is clamped: corners out of
      order give a negative extent. */
  function ToCentre(c: Corners, d: Dims): (b: Centre)
    ensures b.w * d.width as real == c.xMax - c.xMin
    ensures b.h * d.height as real == c.yMax - c.yMin
    ensures 2.0 * b.cx * d.width as real == c.xMin + c.xMax
    ensures 2.0 * b.cy * d.height as real == c.yMin + c.yMax
    ensures b.w < 0.0 <==> c.xMax < c.xMin
    ensures b.h < 0.0 <==> c.yMax < c.yMin
  {
    var width := c.xMax - c.xMin;
    var height := c.yMax - c.yMin;
    var centreX := c.xMin + width / 2.0;
    var centreY := c.yMin + height / 2.0;
    Centre(centreX / d.width as real, centreY / d.height as real,
           width / d.width as real, height / d.height as real)
  }

  /** Back from normalised centre form to pixel corners:
      min = centre - extent / 2 and max = centre + extent / 2, scaled back. */
  function ToCorners(b: Centre, d: Dims): Corners {
    var W := d.width as real;
    var H := d.height as real;
    Corners(b.cx * W - b.w * W / 2.0, b.cy * H - b.h * H / 2.0,
            b.cx * W + b.w * W / 2.0, b.cy * H + b.h * H / 2.0)
  }

  /** The new `convert`: None when the image is missing or does not decode,
      otherwise the normalised box. */
  function Convert(image: Image, c: Corners): (r: Option<Centre>)
    ensures r.Some? <==> image.Decoded?
    ensures r.Some? ==> ToCorners(r.value, image.dims) == c
  {
    if image.Decoded? then
      RoundTrip(c, image.dims);
      Some(ToCentre(c, image.dims))
    else None
  }

  /** Normalising and scaling back gives the corners exactly. */
  lemma RoundTrip(c: Corners, d: Dims)
    ensures ToCorners(ToCentre(c, d), d) == c
  {
    var b := ToCentre(c, d);
    var W := d.width as real;
    var H := d.height as real;
    assert b.cx * W - b.w * W / 2.0 == c.xMin;
    assert b.cx * W + b.w * W / 2.0 == c.xMax;
    assert b.cy * H - b.h * H / 2.0 == c.yMin;
    assert b.cy * H + b.h * H / 2.0 == c.yMax;
  }

  /** Every normalised box is the image of exactly the corners it scales
      back to. */
  lemma RoundTripBack(b: Centre, d: Dims)
    ensures ToCentre(ToCorners(b, d), d) == b
  {
    var c := ToCorners(b, d);
    var r := ToCentre(c, d);
    var W := d.width as real;
    var H := d.height as real;
    assert r.w * W == b.w * W;
    assert r.h * H == b.h * H;
    assert r.cx * W == b.cx * W;
    assert r.cy * H == b.cy * H;
  }

  /** A box inside its image normalises to four values in [0, 1]. */
  lemma UnitBounds(c: Corners, d: Dims)
    requires InsideImage(c, d)
    ensures AllInUnit(ToCentre(c, d))
  {
    var W := d.width as real;
    var H := d.height as real;
    RatioInUnit(c.xMax - c.xMin, W);
    RatioInUnit(c.yMax - c.yMin, H);
    RatioInUnit(c.xMin + (c.xMax - c.xMin) / 2.0, W);
    RatioInUnit(c.yMin + (c.yMax - c.yMin) / 2.0, H);
  }

  /** The worked example: a 100 x 200 image and the box (10, 20)-(30, 80)
      give centre (0.2, 0.25) and extent (0.2, 0.3). */
  lemma WorkedExample()
    ensures ToCentre(Corners(10.0, 20.0, 30.0, 80.0), Dims(100, 200))
            == Centre(0.2, 0.25, 0.2, 0.3)
  {
  }

  /** Python's `int(x)` for a float: truncation toward zero. */
  function Trunc(x: real): (n: int)
    ensures 0.0 <= x ==> 0 <= n && n as real <= x < n as real + 1.0
    ensures x < 0.0 ==> n <= 0 && n as real - 1.0 < x <= n as real
  {
    if x >= 0.0 then x.Floor else -((-x).Floor)
  }

  predicate IsIntegral(x: real) {
    x.Floor as real == x
  }

  /** Truncation leaves a value alone exactly when it is a whole number. */
  lemma TruncFixesIntegral(x: real)
    ensures Trunc(x) as real == x <==> IsIntegral(x)
  {
    if x < 0.0 && IsIntegral(x) {
      assert (-x).Floor == -(x.Floor);
    }
  }

  /** The arithmetic of the old `convert`: the same extents, but the centre
      is min plus the half-extent truncated toward zero, so it lies up to
      one pixel short of the exact centre (beyond it for a negative
      extent). */
  function ToCentreTruncated(c: Corners, d: Dims): (b: Centre)
    ensures b.w == ToCentre(c, d).w && b.h == ToCentre(c, d).h
    ensures c.xMin <= c.xMax ==>
              (c.xMin + c.xMax) / 2.0 - 1.0 < b.cx * d.width as real <= (c.xMin + c.xMax) / 2.0
    ensures c.xMax < c.xMin ==>
              (c.xMin + c.xMax) / 2.0 <= b.cx * d.width as real < (c.xMin + c.xMax) / 2.0 + 1.0
    ensures c.yMin <= c.yMax ==>
              (c.yMin + c.yMax) / 2.0 - 1.0 < b.cy * d.height as real <= (c.yMin + c.yMax) / 2.0
    ensures c.yMax < c.yMin ==>
              (c.yMin + c.yMax) / 2.0 <= b.cy * d.height as real < (c.yMin + c.yMax) / 2.0 + 1.0
  {
    var width := c.xMax - c.xMin;
    var height := c.yMax - c.yMin;
    var xDiff := Trunc(width / 2.0);
    var yDiff := Trunc(height / 2.0);
    var x := c.xMin + xDiff as real;
    var y := c.yMin + yDiff as real;
    Centre(x / d.width as real, y / d.height as real,
           width / d.width as real, height / d.height as real)
  }

  /** The old `convert`: the pixel corners unchanged when the image is
      missing or does not decode, otherwise the truncated normalisation. */
  function ConvertTruncated(image: Image, c: Corners): (r: Coords)
    ensures r.Normalised? <==> image.Decoded?
    ensures r.Pixel? ==> r.Values() == c.Values()
    ensures r.Normalised? ==> r.centre == ToCentreTruncated(c, image.dims)
  {
    if image.Decoded? then Normalised(ToCentreTruncated(c, image.dims)) else Pixel(c)
  }

  /** The two variants compute the same box exactly when both half-extents
      are whole numbers of pixels. */
  lemma TruncatedAgreesIffWholeHalves(c: Corners, d: Dims)
    ensures ToCentreTruncated(c, d) == ToCentre(c, d)
            <==> IsIntegral((c.xMax - c.xMin) / 2.0) && IsIntegral((c.yMax - c.yMin) / 2.0)
  {
    var W := d.width as real;
    var H := d.height as real;
    var hx := (c.xMax - c.xMin) / 2.0;
    var hy := (c.yMax - c.yMin) / 2.0;
    TruncFixesIntegral(hx);
    TruncFixesIntegral(hy);
    var t := ToCentreTruncated(c, d);
    var e := ToCentre(c, d);
    assert t.cx * W == c.xMin + Trunc(hx) as real;
    assert e.cx * W == c.xMin + hx;
    assert t.cy * H == c.yMin + Trunc(hy) as real;
    assert e.cy * H == c.yMin + hy;
    if t.cx == e.cx {
      assert t.cx * W == e.cx * W;
    }
    if t.cy == e.cy {
      assert t.cy * H == e.cy * H;
    }
  }

  /** The truncated centre of a box inside its image still lies in [0, 1]. */
  lemma TruncatedUnitBounds(c: Corners, d: Dims)
    requires InsideImage(c, d)
    ensures AllInUnit(ToCentreTruncated(c, d))
  {
    UnitBounds(c, d);
    var hx := Trunc((c.xMax - c.xMin) / 2.0);
    var hy := Trunc((c.yMax - c.yMin) / 2.0);
    RatioInUnit(c.xMin + hx as real, d.width as real);
    RatioInUnit(c.yMin + hy as real, d.height as real);
  }

  lemma RatioInUnit(x: real, total: real)
    requires 0.0 <= x <= total && 0.0 < total
    ensures InUnit(x / total)
  {
    assert x / total * total == x;
  }
}

=== FILE: fields.dfy ===
/** The per-line lookups both converters make before any arithmetic: the
    class id from the class directory's name and the four coordinates from
    fields 1 to 4 of the split line. */
module Fields {
  import opened Base
  import opened Boxes

  /** The fixed table `{"Hammer": 0, "Pipes": 1}`. */
  const ClassMapping: map<string, nat> := map["Hammer" := 0, "Pipes" := 1]

  /** `class_mapping.get(CLASS_DIR, 0)`: the id depends on the class
      directory's name alone; "Pipes" is class 1 and every other name,
      "Hammer" included, is class 0. */
  function ClassId(classDir: string): (id: nat)
    ensures id == 0 || id == 1
    ensures id == 1 <==> classDir == "Pipes"
  {
    if classDir in ClassMapping then ClassMapping[classDir] else 0
  }

  /** `float(labels[i])`: IndexError past the last field, ValueError when
      the field is not a number. */
  function Field(labels: seq<string>, i: nat, parse: string -> Option<real>): (r: Result<real>)
    ensures r.Ok? <==> i < |labels| && parse(labels[i]).Some?
    ensures r == Raised(IndexError) <==> i >= |labels|
    ensures r.Ok? ==> r.value == parse(labels[i]).value
  {
    if i < |labels| then
      match parse(labels[i])
      case Some(v) => Ok(v)
      case None => Raised(ValueError)
    else Raised(IndexError)
  }

  /** `[float(labels[1]), float(labels[2]), float(labels[3]), float(labels[4])]`,
      evaluated left to right: the first field that is absent or not a
      number decides which exception escapes. Field 0 is never read. */
  function ParseCorners(labels: seq<string>, parse: string -> Option<real>): (r: Result<Corners>)
    ensures r.Ok? <==> |labels| >= 5 && forall i :: 1 <= i <= 4 ==> parse(labels[i]).Some?
    ensures r.Ok? ==> r.value.Values() == [parse(labels[1]).value, parse(labels[2]).value,
                                           parse(labels[3]).value, parse(labels[4]).value]
    ensures r == Raised(IndexError)
            <==> |labels| < 5 && forall i :: 1 <= i < |labels| ==> parse(labels[i]).Some?
  {
    var xMin :- Field(labels, 1, parse);
    var yMin :- Field(labels, 2, parse);
    var xMax :- Field(labels, 3, parse);
    var yMax :- Field(labels, 4, parse);
    Ok(Corners(xMin, yMin, xMax, yMax))
  }

  /** Only fields 1 to 4 are read: replacing field 0, or appending fields
      after the fifth, changes nothing. */
  lemma ParseCornersReadsFieldsOneToFour(labels: seq<string>, other: string, extra: seq<string>,
                                         parse: string -> Option<real>)
    requires |labels| >= 5
    ensures ParseCorners(labels[0 := other], parse) == ParseCorners(labels, parse)
    ensures ParseCorners(labels + extra, parse) == ParseCorners(labels, parse)
  {
    var a := labels[0 := other];
    var b := labels + extra;
    assert a[1] == labels[1] && a[2] == labels[2] && a[3] == labels[3] && a[4] == labels[4];
    assert b[1] == labels[1] && b[2] == labels[2] && b[3] == labels[3] && b[4] == labels[4];
  }
}

=== FILE: paths.dfy ===
/** Where a label file sits and which image the converter opens for it:
    the `filename.endswith(".txt")` filter, `os.path.splitext` of the label
    file name, and the `os.path.join` that builds the image path from the
    working directory, the split directory and the class directory. */
module Paths {

  /** A label file found by the directory walk: `root` is the working
      directory, `split` the train/validation/test directory, `classDir`
      the class directory and `name` the file name inside its `Label`
      directory. */
  datatype LabelFile = LabelFile(root: string, split: string, classDir: string, name: string)

  predicate EndsWith(s: string, suffix: string) {
    |suffix| <= |s| && s[|s| - |suffix|..] == suffix
  }

  /** Only names ending in ".txt" are converted. */
  predicate IsLabelName(name: string) {
    EndsWith(name, ".txt")
  }

  /** `posixpath.join(a, b)`: an absolute `b` replaces `a`; otherwise `b` is
      appended, with a '/' in between unless `a` is empty or already ends
      with one. */
  function PathJoin(a: string, b: string): (p: string)
    ensures EndsWith(p, b)
    ensures (b == [] || b[0] != '/') ==> |a| <= |p| && p[..|a|] == a
    ensures b != [] && b[0] == '/' ==> p == b
  {
    if |b| > 0 && b[0] == '/' then b
    else if a == [] || a[|a| - 1] == '/' then a + b
    else a + "/" + b
  }

  /** Index of the last occurrence of `c` in `s`, or -1 when there is none. */
  function LastIndex(s: string, c: char): (k: int)
    ensures -1 <= k < |s|
    ensures k >= 0 ==> s[k] == c
    ensures forall i :: k < i < |s| ==> s[i] != c
  {
    if s == [] then -1
    else if s[|s| - 1] == c then |s| - 1
    else LastIndex(s[..|s| - 1], c)
  }

  /** `os.path.splitext(p)[0]`: cut `p` at its last '.', provided that dot
      lies in the last path component and something other than dots
      precedes it there; otherwise `p` is returned whole. */
  function StemOf(p: string): (stem: string)
    ensures |stem| <= |p| && stem == p[..|stem|]
    ensures stem == [] <==> p == []
  {
    var sep := LastIndex(p, '/');
    var dot := LastIndex(p, '.');
    if sep < dot && exists i :: sep < i < dot && p[i] != '.' then p[..dot] else p
  }

  /** The stem of a label file name is the name less ".txt" exactly when
      some character other than '.' precedes that extension; a name such as
      ".txt" or "..txt" is its own stem. */
  lemma StemOfLabelName(name: string)
    requires IsLabelName(name)
    requires '/' !in name
    ensures StemOf(name) == name[..|name| - 4]
            <==> exists i :: 0 <= i < |name| - 4 && name[i] != '.'
    ensures !(exists i :: 0 <= i < |name| - 4 && name[i] != '.') ==> StemOf(name) == name
  {
    var dot := LastIndex(name, '.');
    assert name[|name| - 4] == '.';
    assert dot == |name| - 4;
    assert LastIndex(name, '/') == -1;
  }

  /** The image a label file is paired with:
      `os.path.join(ROOT_DIR, "OID", "Dataset", DIR, CLASS_DIR, stem + ".jpg")`. */
  function ImagePath(f: LabelFile): (p: string)
    ensures EndsWith(p, StemOf(f.name) + ".jpg")
  {
    var p := PathJoin(PathJoin(PathJoin(PathJoin(PathJoin(
               f.root, "OID"), "Dataset"), f.split), f.classDir), StemOf(f.name) + ".jpg");
    p
  }

  /** With the names a directory listing produces (non-empty, no '/') under an
      ordinary working directory, the image path is the usual layout
      `<root>/OID/Dataset/<split>/<class>/<stem>.jpg`. */
  lemma ImagePathLayout(f: LabelFile)
    requires f.root != [] && f.root[|f.root| - 1] != '/'
    requires f.split != [] && '/' !in f.split
    requires f.classDir != [] && '/' !in f.classDir
    requires '/' !in f.name
    ensures ImagePath(f) == f.root + "/" + "OID" + "/" + "Dataset" + "/" + f.split
                            + "/" + f.classDir + "/" + (StemOf(f.name) + ".jpg")
  {
    var stem := StemOf(f.name);
    var leaf := stem + ".jpg";
    assert leaf[0] != '/' by {
      if stem != [] {
        assert stem[0] == f.name[0];
        assert f.name[0] in f.name;
      }
    }
    assert f.split[0] in f.split && f.split[|f.split| - 1] in f.split;
    assert f.classDir[0] in f.classDir && f.classDir[|f.classDir| - 1] in f.classDir;
    var a := JoinRelative(f.root, "OID");
    var b := JoinRelative(a, "Dataset");
    var c := JoinRelative(b, f.split);
    var d := JoinRelative(c, f.classDir);
    var e := JoinRelative(d, leaf);
    assert b == f.root + "/" + "OID" + "/" + "Dataset";
    assert d == f.root + "/" + "OID" + "/" + "Dataset" + "/" + f.split + "/" + f.classDir;
    assert e == ImagePath(f);
  }

  /** Joining a relative component onto a path that does not end in '/'
      puts exactly one '/' between them. */
  function JoinRelative(a: string, b: string): (p: string)
    requires a != [] && a[|a| - 1] != '/'
    requires b != [] && b[0] != '/'
    ensures p == PathJoin(a, b)
    ensures p == a + "/" + b
    ensures p[|p| - 1] == b[|b| - 1]
  {
    a + "/" + b
  }
}

=== FILE: text.dfy ===
/** The text handling both converters share: Python's `str.split()`,
    `sep.join(...)`, iteration over the lines of a text file, the output
    join with a trailing newline, and `str(...)` of a class id. */
module Text {
  import opened Base

  /** The characters Python's `str.split()` (no separator) breaks on:
      those for which `str.isspace()` holds. */
  predicate IsSpace(c: char) {
    || c == ' '
    || ('\t' <= c <= '\r')                 // \t \n \v \f \r
    || ('\U{1C}' <= c <= '\U{1F}')         // file, group, record, unit separators
    || c == '\U{85}' || c == '\U{A0}' || c == '\U{1680}'
    || ('\U{2000}' <= c <= '\U{200A}')
    || c == '\U{2028}' || c == '\U{2029}' || c == '\U{202F}'
    || c == '\U{205F}' || c == '\U{3000}'
  }

  /** One field of a split line: non-empty and free of whitespace. */
  predicate IsToken(t: string) {
    |t| > 0 && forall i :: 0 <= i < |t| ==> !IsSpace(t[i])
  }

  predicate AllTokens(ts: seq<string>) {
    forall i :: 0 <= i < |ts| ==> IsToken(ts[i])
  }

  /** Fields never contain a line break. */
  lemma TokensAvoidNewline(ts: seq<string>)
    requires AllTokens(ts)
    ensures forall i :: 0 <= i < |ts| ==> '\n' !in ts[i]
  {
    assert IsSpace('\n');
  }

  predicate AllSpace(s: string) {
    forall i :: 0 <= i < |s| ==> IsSpace(s[i])
  }

  /** Length of the longest whitespace-free prefix of `s`. */
  function TokenLength(s: string): (n: nat)
    ensures n <= |s|
    ensures forall i :: 0 <= i < n ==> !IsSpace(s[i])
    ensures n < |s| ==> IsSpace(s[n])
  {
    if s == [] || IsSpace(s[0]) then 0 else 1 + TokenLength(s[1..])
  }

  /** Python's `s.split()`: the maximal runs of non-whitespace characters in
      order. Leading, trailing and repeated whitespace yield no empty field,
      and a blank line yields no field at all. */
  function Split(s: string): (ts: seq<string>)
    ensures AllTokens(ts)
    decreases |s|
  {
    if s == [] then []
    else if IsSpace(s[0]) then Split(s[1..])
    else
      var n := TokenLength(s);
      [s[..n]] + Split(s[n..])
  }

  /** A line yields no field exactly when it is blank. */
  lemma {:induction false} SplitBlank(s: string)
    ensures Split(s) == [] <==> AllSpace(s)
    decreases |s|
  {
    if s != [] && IsSpace(s[0]) {
      SplitBlank(s[1..]);
      assert forall i :: 1 <= i < |s| ==> s[i] == s[1..][i - 1];
    }
  }

  /** Python's `sep.join(ts)`: the parts in order with one separator
      between neighbours; no part gives the empty string and a single part
      is returned as it is. */
  function Join(sep: string, ts: seq<string>): (r: string)
    ensures |ts| == 0 ==> r == []
    ensures |ts| == 1 ==> r == ts[0]
  {
    if |ts| == 0 then []
    else if |ts| == 1 then ts[0]
    else ts[0] + sep + Join(sep, ts[1..])
  }

  lemma {:induction false} TokenLengthOfPrefix(t: string, rest: string)
    requires forall i :: 0 <= i < |t| ==> !IsSpace(t[i])
    requires rest == [] || IsSpace(rest[0])
    ensures TokenLength(t + rest) == |t|
    decreases |t|
  {
    if t != [] {
      assert (t + rest)[1..] == t[1..] + rest;
      TokenLengthOfPrefix(t[1..], rest);
    }
  }

  /** A token followed by whitespace or by nothing splits off as one field. */
  lemma SplitOfToken(t: string, rest: string)
    requires IsToken(t)
    requires rest == [] || IsSpace(rest[0])
    ensures Split(t + rest) == [t] + Split(rest)
  {
    TokenLengthOfPrefix(t, rest);
    var s := t + rest;
    assert s[..|t|] == t;
    assert s[|t|..] == rest;
  }

  /** Splitting fields joined by single spaces gives the fields back: the
      join of an output line and the split of the next reader agree. */
  lemma {:induction false} SplitJoin(ts: seq<string>)
    requires AllTokens(ts)
    ensures Split(Join(" ", ts)) == ts
  {
    if |ts| == 1 {
      SplitOfToken(ts[0], []);
      assert ts[0] + [] == ts[0];
    } else if |ts| > 1 {
      var tail := Join(" ", ts[1..]);
      assert Join(" ", ts) == ts[0] + (" " + tail);
      SplitOfToken(ts[0], " " + tail);
      SplitSkipsSpace(' ', tail);
      SplitJoin(ts[1..]);
      assert ts == [ts[0]] + ts[1..];
    }
  }

  lemma SplitSkipsSpace(c: char, s: string)
    requires IsSpace(c)
    ensures Split([c] + s) == Split(s)
  {
    assert ([c] + s)[1..] == s;
  }

  /** A run of whitespace in front of a line contributes no field. */
  lemma {:induction false} SplitSkipsBlank(w: string, s: string)
    requires AllSpace(w)
    ensures Split(w + s) == Split(s)
    decreases |w|
  {
    if w != [] {
      assert w + s == [w[0]] + (w[1..] + s);
      assert forall i :: 0 <= i < |w| - 1 ==> w[1..][i] == w[i + 1];
      SplitSkipsSpace(w[0], w[1..] + s);
      SplitSkipsBlank(w[1..], s);
    } else {
      assert w + s == s;
    }
  }

  /** `ws[0] + ts[0] + ws[1] + ... + ts[n-1] + ws[n]`: fields with a run of
      whitespace before, between and after them. */
  function Interleave(ws: seq<string>, ts: seq<string>): (s: string)
    requires |ws| == |ts| + 1
    ensures ws[0] <= s
    decreases |ts|
  {
    if ts == [] then ws[0] else ws[0] + ts[0] + Interleave(ws[1..], ts[1..])
  }

  /** Every line is a sequence of fields laid out between runs of
      whitespace, the runs between two fields non-empty and the leading and
      trailing runs possibly empty; `Split` returns exactly those fields, so
      it finds the maximal whitespace-free runs whatever the spacing (tabs,
      repeated blanks, a trailing "\r"). */
  lemma {:induction false} SplitInterleave(ws: seq<string>, ts: seq<string>)
    requires |ws| == |ts| + 1
    requires AllTokens(ts)
    requires forall i :: 0 <= i < |ws| ==> AllSpace(ws[i])
    requires forall i :: 0 < i < |ts| ==> ws[i] != []
    ensures Split(Interleave(ws, ts)) == ts
    decreases |ts|
  {
    if ts == [] {
      SplitSkipsBlank(ws[0], []);
      assert ws[0] + [] == ws[0];
      SplitBlank([]);
    } else {
      var rest := Interleave(ws[1..], ts[1..]);
      assert Interleave(ws, ts) == ws[0] + (ts[0] + rest);
      SplitSkipsBlank(ws[0], ts[0] + rest);
      if ws[1] == [] {
        assert |ts| == 1;
        assert rest == [];
      } else {
        assert rest[0] == ws[1][0];
      }
      SplitOfToken(ts[0], rest);
      assert forall i :: 0 < i < |ts| - 1 ==> ws[1..][i] == ws[i + 1];
      SplitInterleave(ws[1..], ts[1..]);
      HeadTail(ts);
      calc {
        Split(Interleave(ws, ts));
        Split(ts[0] + rest);
        [ts[0]] + Split(rest);
        [ts[0]] + ts[1..];
      }
    }
  }

  lemma HeadTail<T>(s: seq<T>)
    requires s != []
    ensures s == [s[0]] + s[1..]
  {
  }

  /** A character absent from the separator and from every part is absent
      from their join. */
  lemma {:induction false} JoinAvoids(sep: string, ts: seq<string>, c: char)
    requires c !in sep
    requires forall i :: 0 <= i < |ts| ==> c !in ts[i]
    ensures c !in Join(sep, ts)
  {
    if |ts| > 1 {
      JoinAvoids(sep, ts[1..], c);
    }
  }

  /** Length of the prefix of `s` before its first '\n'. */
  function LineLength(s: string): (n: nat)
    ensures n <= |s|
    ensures forall i :: 0 <= i < n ==> s[i] != '\n'
    ensures n < |s| ==> s[n] == '\n'
  {
    if s == [] || s[0] == '\n' then 0 else 1 + LineLength(s[1..])
  }

  /** The lines Python's `for line in f` yields for file content `s`, each
      without its '\n' terminator; a final line without a terminator is still
      a line, and a terminator at the very end opens no further line. */
  function Lines(s: string): (ls: seq<string>)
    ensures forall i :: 0 <= i < |ls| ==> '\n' !in ls[i]
    ensures ls == [] <==> s == []
    decreases |s|
  {
    if s == [] then []
    else
      var n := LineLength(s);
      if n == |s| then [s] else [s[..n]] + Lines(s[n + 1..])
  }

  /** The fields of every line of a file, as `for line in f: line.split()`
      sees them. */
  function SplitLines(content: string): (lines: seq<seq<string>>)
    ensures |lines| == |Lines(content)|
    ensures forall i :: 0 <= i < |lines| ==> lines[i] == Split(Lines(content)[i])
  {
    var ls := Lines(content);
    seq(|ls|, i requires 0 <= i < |ls| => Split(ls[i]))
  }

  /** A file written as lines of space-joined fields reads back, line by
      line, as exactly those fields; writing no line at all reads back as
      one line without fields. */
  lemma WrittenFieldsReadBack(tss: seq<seq<string>>)
    requires forall i :: 0 <= i < |tss| ==> AllTokens(tss[i])
    ensures SplitLines(WriteLines(seq(|tss|, i requires 0 <= i < |tss| => Join(" ", tss[i]))))
            == if tss == [] then [[]] else tss
  {
    var ls := seq(|tss|, i requires 0 <= i < |tss| => Join(" ", tss[i]));
    forall i | 0 <= i < |ls|
      ensures '\n' !in ls[i]
    {
      TokensAvoidNewline(tss[i]);
      JoinAvoids(" ", tss[i], '\n');
    }
    LinesOfWriteLines(ls);
    if tss == [] {
      SplitBlank("");
    } else {
      forall i | 0 <= i < |tss|
        ensures SplitLines(WriteLines(ls))[i] == tss[i]
      {
        SplitJoin(tss[i]);
      }
    }
  }

  /** The file content `"\n".join(lines) + "\n"` both converters write:
      it always ends with a line break, and no line at all is written as a
      lone line break. */
  function WriteLines(ls: seq<string>): (w: string)
    ensures |w| > 0 && w[|w| - 1] == '\n'
    ensures ls == [] ==> w == "\n"
  {
    Join("\n", ls) + "\n"
  }

  lemma {:induction false} LineLengthOfPrefix(l: string, rest: string)
    requires '\n' !in l
    requires rest != [] && rest[0] == '\n'
    ensures LineLength(l + rest) == |l|
    decreases |l|
  {
    if l != [] {
      assert (l + rest)[1..] == l[1..] + rest;
      LineLengthOfPrefix(l[1..], rest);
    }
  }

  /** Reading back written content gives the written lines, except that an
      empty list is written as a lone "\n", which reads back as one empty
      line. */
  lemma {:induction false} LinesOfWriteLines(ls: seq<string>)
    requires forall i :: 0 <= i < |ls| ==> '\n' !in ls[i]
    ensures Lines(WriteLines(ls)) == if ls == [] then [""] else ls
  {
    if ls == [] {
      LinesAfterLine("", "");
      assert WriteLines(ls) == "" + "\n" + "";
    } else if |ls| == 1 {
      LinesAfterLine(ls[0], "");
      assert WriteLines(ls) == ls[0] + "\n" + "";
    } else {
      LinesAfterLine(ls[0], WriteLines(ls[1..]));
      assert WriteLines(ls) == ls[0] + "\n" + WriteLines(ls[1..]);
      LinesOfWriteLines(ls[1..]);
      HeadTail(ls);
    }
  }

  /** A line followed by its terminator is read as that line, and reading
      resumes after the terminator. */
  lemma LinesAfterLine(l: string, rest: string)
    requires '\n' !in l
    ensures Lines(l + "\n" + rest) == [l] + Lines(rest)
  {
    var s := l + "\n" + rest;
    LineLengthOfPrefix(l, "\n" + rest);
    assert s == l + ("\n" + rest);
    assert s[..|l|] == l;
    assert s[|l| + 1..] == rest;
  }

  /** A final line without a terminator is read just as if it had one, so
      together with `LinesOfWriteLines` this fixes `Lines` on every file. */
  lemma {:induction false} LinesUnterminated(s: string)
    requires s != [] && s[|s| - 1] != '\n'
    ensures Lines(s + "\n") == Lines(s)
    decreases |s|
  {
    var n := LineLength(s);
    if n == |s| {
      assert '\n' !in s;
      LinesAfterLine(s, "");
      assert s + "\n" == s + "\n" + "";
    } else {
      var l, rest := s[..n], s[n + 1..];
      assert '\n' !in l;
      assert s == l + "\n" + rest;
      assert s + "\n" == l + "\n" + (rest + "\n");
      LinesAfterLine(l, rest);
      LinesAfterLine(l, rest + "\n");
      assert rest[|rest| - 1] == s[|s| - 1];
      LinesUnterminated(rest);
    }
  }

  /** Python's `str(n)` for a non-negative integer. */
  function Decimal(n: nat): (s: string)
    ensures IsToken(s)
    ensures forall i :: 0 <= i < |s| ==> '0' <= s[i] <= '9'
    ensures |s| > 1 ==> s[0] != '0'
  {
    if n < 10 then [Digit(n)] else Decimal(n / 10) + [Digit(n % 10)]
  }

  function Digit(d: nat): (c: char)
    requires d < 10
    ensures '0' <= c <= '9'
  {
    ('0' as int + d) as char
  }

  /** The integer a string of decimal digits denotes. */
  function DecimalValue(s: string): nat
    requires forall i :: 0 <= i < |s| ==> '0' <= s[i] <= '9'
  {
    if s == [] then 0
    else 10 * DecimalValue(s[..|s| - 1]) + (s[|s| - 1] as int - '0' as int)
  }

  /** `str` of a class id reads back as the same id. */
  lemma {:induction false} DecimalRoundTrip(n: nat)
    ensures DecimalValue(Decimal(n)) == n
  {
    if n >= 10 {
      var s := Decimal(n);
      assert s[..|s| - 1] == Decimal(n / 10);
      DecimalRoundTrip(n / 10);
    }
  }

  /** The float-text conversions the converters rely on, left abstract:
      `parse` is Python's `float(...)` (None where it raises ValueError) and
      `show` is `str(...)` of a float. */
  datatype Numerals = Numerals(parse: string -> Option<real>, show: real -> string)

  /** `str` of a float is always one whitespace-free field. */
  ghost predicate ShowsTokens(num: Numerals) {
    forall x :: IsToken(num.show(x))
  }

  /** `map(str, values)`. */
  function ShowAll(vs: seq<real>, show: real -> string): (ss: seq<string>)
    ensures |ss| == |vs|
    ensures forall i :: 0 <= i < |vs| ==> ss[i] == show(vs[i])
  {
    seq(|vs|, i requires 0 <= i < |vs| => show(vs[i]))
  }
}

=== FILE: variants.dfy ===
/** How the two converters relate, and the two places where the old one
    departs from what the new one shows was meant: the truncated centre and
    the pixel values left in lines whose image cannot be read. */
module Variants {
  import opened Base
  import opened Text
  import opened Boxes
  import opened Fields
  import Paths
  import Annotations
  import AnnotationsOld

  /** `str` tells apart the two values compared in each position of `xs`
      and `ys`; no `str` tells all reals apart, but a faithful one tells
      apart the few values two converted boxes hold. */
  ghost predicate ShowsApart(num: Numerals, xs: seq<real>, ys: seq<real>) {
    forall i :: 0 <= i < |xs| && i < |ys| && num.show(xs[i]) == num.show(ys[i]) ==> xs[i] == ys[i]
  }

  lemma ShowAllApart(xs: seq<real>, ys: seq<real>, num: Numerals)
    requires ShowsApart(num, xs, ys)
    requires |xs| == |ys|
    requires ShowAll(xs, num.show) == ShowAll(ys, num.show)
    ensures xs == ys
  {
    forall i | 0 <= i < |xs|
      ensures xs[i] == ys[i]
    {
      assert num.show(xs[i]) == ShowAll(xs, num.show)[i];
    }
  }

  /** On a line of exactly five fields whose image decodes, both converters
      write the same line exactly when both half-extents of the box are
      whole numbers of pixels. */
  lemma SameLineIffWholeHalves(labels: seq<string>, classDir: string, image: Image, num: Numerals)
    requires |labels| == 5
    requires ParseCorners(labels, num.parse).Ok?
    requires image.Decoded?
    requires ShowsTokens(num)
    requires var c := ParseCorners(labels, num.parse).value;
             ShowsApart(num, ToCentre(c, image.dims).Values(), ToCentreTruncated(c, image.dims).Values())
    ensures var c := ParseCorners(labels, num.parse).value;
            Annotations.ConvertLine(labels, classDir, image, num)
              == Ok(Some(AnnotationsOld.ConvertLine(labels, classDir, image, num).value))
            <==> IsIntegral((c.xMax - c.xMin) / 2.0) && IsIntegral((c.yMax - c.yMin) / 2.0)
  {
    var c := ParseCorners(labels, num.parse).value;
    var d := image.dims;
    var id := Decimal(ClassId(classDir));
    BothLines(labels, classDir, image, num);
    TruncatedAgreesIffWholeHalves(c, d);
    SameTextIffSameBox(id, ToCentre(c, d), ToCentreTruncated(c, d), num);
  }

  /** When `str` tells their values apart, two boxes written after the same class id
      give the same line exactly when they are the same box. */
  lemma SameTextIffSameBox(id: string, a: Centre, b: Centre, num: Numerals)
    requires IsToken(id)
    requires ShowsTokens(num) && ShowsApart(num, a.Values(), b.Values())
    ensures Join(" ", [id] + ShowAll(a.Values(), num.show)) == Join(" ", [id] + ShowAll(b.Values(), num.show))
            <==> a == b
  {
    var sa, sb := ShowAll(a.Values(), num.show), ShowAll(b.Values(), num.show);
    if Join(" ", [id] + sa) == Join(" ", [id] + sb) {
      assert AllTokens([id] + sa) && AllTokens([id] + sb);
      SplitJoin([id] + sa);
      SplitJoin([id] + sb);
      assert sa == ([id] + sa)[1..] && sb == ([id] + sb)[1..];
      ShowAllApart(a.Values(), b.Values(), num);
    }
  }

  /** On a line of exactly five fields whose image decodes, the new line is
      the class id and the exact values, the old line the class id and the
      truncated values. */
  lemma BothLines(labels: seq<string>, classDir: string, image: Image, num: Numerals)
    requires |labels| == 5
    requires ParseCorners(labels, num.parse).Ok?
    requires image.Decoded?
    ensures var c := ParseCorners(labels, num.parse).value;
            var id := Decimal(ClassId(classDir));
            && Annotations.ConvertLine(labels, classDir, image, num)
               == Ok(Some(Join(" ", [id] + ShowAll(ToCentre(c, image.dims).Values(), num.show))))
            && AnnotationsOld.ConvertLine(labels, classDir, image, num)
               == Ok(Join(" ", [id] + ShowAll(ToCentreTruncated(c, image.dims).Values(), num.show)))
  {
    var c := ParseCorners(labels, num.parse).value;
    var id := Decimal(ClassId(classDir));
    var truncated := ShowAll(ToCentreTruncated(c, image.dims).Values(), num.show);
    assert [id] + truncated == labels[0 := id][1 := truncated[0]][2 := truncated[1]]
                                     [3 := truncated[2]][4 := truncated[3]];
  }

  /** A file whose lines all have exactly five fields, whose image decodes
      and whose boxes all have whole half-extents converts to the same lines
      under both converters. */
  lemma {:induction false} SameLinesForWholeHalves(lines: seq<seq<string>>, classDir: string,
                                                   image: Image, num: Numerals)
    requires image.Decoded?
    requires forall i :: 0 <= i < |lines| ==>
               |lines[i]| == 5 && ParseCorners(lines[i], num.parse).Ok?
               && WholeHalves(ParseCorners(lines[i], num.parse).value)
    ensures AnnotationsOld.ConvertLines(lines, classDir, image, num).Ok?
    ensures Annotations.ConvertLines(lines, classDir, image, num)
            == AnnotationsOld.ConvertLines(lines, classDir, image, num)
  {
    if lines != [] {
      var c := ParseCorners(lines[0], num.parse).value;
      TruncatedAgreesIffWholeHalves(c, image.dims);
      BothLines(lines[0], classDir, image, num);
      assert ToCentreTruncated(c, image.dims) == ToCentre(c, image.dims);
      var line := AnnotationsOld.ConvertLine(lines[0], classDir, image, num);
      assert line.Ok?;
      assert Annotations.ConvertLine(lines[0], classDir, image, num) == Ok(Some(line.value));
      assert forall i :: 1 <= i < |lines| ==> lines[1..][i - 1] == lines[i];
      SameLinesForWholeHalves(lines[1..], classDir, image, num);
      var rest := AnnotationsOld.ConvertLines(lines[1..], classDir, image, num);
      assert AnnotationsOld.ConvertLines(lines, classDir, image, num) == Ok([line.value] + rest.value);
      assert Annotations.ConvertLines(lines, classDir, image, num) == Ok([line.value] + rest.value);
    }
  }

  predicate WholeHalves(c: Corners) {
    IsIntegral((c.xMax - c.xMin) / 2.0) && IsIntegral((c.yMax - c.yMin) / 2.0)
  }

  /** The new converter writes a lone "\n" when it drops every line, and it
      leaves that content as it is when run again; the old converter cannot
      read it back: the blank line raises IndexError. */
  lemma EmptyOutputOnRerun(f: Paths.LabelFile, images: string -> Image, num: Numerals)
    ensures Annotations.ConvertFile(f, "\n", images, num) == Ok("\n")
    ensures AnnotationsOld.ConvertFile(f, "\n", images, num) == Raised(IndexError)
  {
    LinesOfWriteLines([]);
    assert WriteLines([]) == "\n";
    assert SplitLines("\n") == [Split("")];
    var image := images(Paths.ImagePath(f));
    var blank: seq<seq<string>> := [[]];
    assert blank[1..] == [];
    assert Annotations.ConvertLines([[]], f.classDir, image, num) == Ok([]);
    assert AnnotationsOld.ConvertLines([[]], f.classDir, image, num) == Raised(IndexError);
  }

  /** As written, the old centre of the 3-pixel box (0, 0)-(3, 3) in a
      100 x 100 image is 0.01 rather than 0.015, and scaling the result back
      does not give the box. */
  lemma TruncatedCentreMissesBox()
    ensures ToCentreTruncated(Corners(0.0, 0.0, 3.0, 3.0), Dims(100, 100))
            == Centre(0.01, 0.01, 0.03, 0.03)
    ensures ToCentre(Corners(0.0, 0.0, 3.0, 3.0), Dims(100, 100))
            == Centre(0.015, 0.015, 0.03, 0.03)
    ensures ToCorners(ToCentreTruncated(Corners(0.0, 0.0, 3.0, 3.0), Dims(100, 100)), Dims(100, 100))
            != Corners(0.0, 0.0, 3.0, 3.0)
  {
    assert Trunc(1.5) == 1;
  }

  /** As written, the old converter keeps a line whose image is missing and
      writes its pixel coordinates where normalised values belong: for the
      line "0 10 20 30 80" the written values include 80, outside [0, 1]. The
      new converter drops that line. */
  lemma PassThroughKeepsPixelValues(num: Numerals, classDir: string)
    requires num.parse("10") == Some(10.0) && num.parse("20") == Some(20.0)
    requires num.parse("30") == Some(30.0) && num.parse("80") == Some(80.0)
    ensures var labels := ["0", "10", "20", "30", "80"];
            && AnnotationsOld.ConvertLine(labels, classDir, Missing, num)
               == Ok(Join(" ", [Decimal(ClassId(classDir)), num.show(10.0), num.show(20.0),
                                num.show(30.0), num.show(80.0)]))
            && !InUnit(ConvertTruncated(Missing, ParseCorners(labels, num.parse).value).Values()[3])
            && Annotations.ConvertLine(labels, classDir, Missing, num) == Ok(None)
  {
    var labels := ["0", "10", "20", "30", "80"];
    var c := ParseCorners(labels, num.parse).value;
    assert c == Corners(10.0, 20.0, 30.0, 80.0);
    var shown := ShowAll(c.Values(), num.show);
    assert labels[0 := Decimal(ClassId(classDir))][1 := shown[0]][2 := shown[1]]
                 [3 := shown[2]][4 := shown[3]]
           == [Decimal(ClassId(classDir)), num.show(10.0), num.show(20.0), num.show(30.0), num.show(80.0)];
  }
}
